=== FILE: README.md ===
# Language identity resolver (zimscraperlib `i18n`)

A Dafny model of the language lookup in `zimscraperlib.i18n`. A free-form
query is resolved to a record of ISO 639 codes and display names. The query
can be an ISO 639 code, a locale such as `zh-Hans`, or an English language
name.

- **Classification.** The query's shape alone decides how it is read; there
  is no sequence of strategies tried in turn. Two or three letters make a
  *pure code*, looked up as is. Letters around exactly one `-` or `_` make a
  *locale*: the part before the separator is looked up, and the renderer
  gets the query with `-` turned into `_`. Anything else is a *language
  name*: it is title-cased, with `Languages` turned back into `languages`,
  before the lookup.
- **Lookup** (`get_iso_lang_data`). The ISO 639 table is asked once for the
  looked-up text. If the entry has a macrolanguage, the table is asked again for that
  macrolanguage's name. That second lookup recurses in the same way, and
  only its first record is kept.
- **Record construction.** `Lang.__init__` stores empty codes as `None`. It
  also computes `iso_types`: the fields equal to the looked-up text ignoring
  case, in the order part1, part2b, part2t, part3, part5, name.
  `update_with_macro` fills the missing codes from the macrolanguage.
- **Display names** (`find_language_names`). The renderer is tried on the
  query first. Then it is tried on the record's codes from most to least
  qualified (5, 3, 2t, 2b, 1). The first code that yields both a native and
  an English name wins. Otherwise the English name, or the query when there
  is none, is used for both names.
- **Failure.** A failed lookup raises `NotFoundError`, or returns `None` in
  failsafe mode. It never yields a partial record.
- **Equality** (`LangAndDetails.__eq__`). Two records are equal when their
  five codes and two display names agree. `iso_types`, `query` and
  `querytype` are ignored. A record never equals a value of another type.

Modules: `Wrappers` (Option, Result), `Text` (ASCII `isalpha`, `lower`,
`title`, `count`, `replace`, `re.split` head), `IsoData` (`Lang`,
`get_iso_lang_data`, `update_with_macro`), `Details` (`LangAndDetails`,
`__eq__`), `Names` (the display-name fallback chain), `Resolver` (the public
functions).

The two foreign libraries are parameters that the model does not interpret.
The ISO 639 table (`iso639.Lang(s)`) is a total function
`string -> Option<IsoRec>`. The locale renderer
(`babel.Locale.parse(c).get_display_name(target)`) is a total function
`(string, Option<string>) -> Option<string>`. Both live in `Resolver.Env`,
together with `stackDepth`. `stackDepth` is the number of nested
macrolanguage lookups the interpreter's stack allows; running out gives
`RecursionError`, which failsafe mode does not catch.

Facts about the code that the model keeps:
- Exactly one reading is chosen, from the query's shape alone; no second
  reading is tried when the lookup fails (`Resolver.Classify`).
- `__eq__` compares the five codes and the two display names only; it
  ignores `query`, `querytype` and `iso_types` (`Details.Eq`).
- `iso_types` can be empty, when no field of the table's answer equals the
  looked-up text ignoring case (`IsoData.MakeLangIsoTypes`).
- When no candidate locale can be rendered, both display names fall back
  to the language data's English name, or to the query when that name is
  empty. Inside `get_language_details` that English name is the table's.
  In `find_language_names(query)` without language data it is the English
  display name of the record resolved for the query.

## Model

| member | source | states |
|---|---|---|
| IsoData.MakeLang | src/zimscraperlib/i18n.py:19-24 | each code and the English name is the table's value, or `None` when the table gives `""` |
| IsoData.MakeLangIsoTypes | src/zimscraperlib/i18n.py:25-32 | a tag is in `iso_types` exactly when its field equals the requested text ignoring case, and the tags come in part1, part2b, part2t, part3, part5, name order |
| IsoData.MatchingTypesFilters | src/zimscraperlib/i18n.py:25-32 | the comprehension keeps exactly the tags whose field matches, and an ordered tag list stays ordered |
| IsoData.MakeLangNoEmptyCodes | src/zimscraperlib/i18n.py:19-23 | a record built from the table never stores `""` as a code |
| IsoData.IsoLangData | src/zimscraperlib/i18n.py:73-90 | an unknown text gives `NotFoundError`; a known text without a macrolanguage succeeds with its own record and no second one; a known text fails only when it has a macrolanguage; on success the first record is built from the text's entry, and the second is present exactly when the entry has a macrolanguage, built from the macrolanguage's own entry |
| IsoData.IsoLangDataOneMacroLevel | src/zimscraperlib/i18n.py:86-90 | a macrolanguage without a macrolanguage of its own resolves in one nested call to both records |
| IsoData.IsoLangDataMacroNotFound | src/zimscraperlib/i18n.py:88-90 | a macrolanguage name the table does not know makes the whole lookup raise `NotFoundError` |
| IsoData.IsoLangDataNestedFailure | src/zimscraperlib/i18n.py:86-90 | with stack left, a known text fails only when it has a macrolanguage, and then with the error of the macrolanguage's own lookup |
| IsoData.IsoLangDataNestedFailurePropagates | src/zimscraperlib/i18n.py:86-90 | a known text with a macrolanguage fails with `RecursionError` when the stack is spent, and otherwise fails whenever the macrolanguage's own lookup fails, with that lookup's error |
| IsoData.IsoLangDataDepthMonotone | src/zimscraperlib/i18n.py:73-90 | a lookup that did not exhaust the stack gives the same answer with more stack |
| IsoData.SameEntrySameLookup | src/zimscraperlib/i18n.py:79-90 | two texts mapped to the same table entry both succeed or fail with the same error, and on success get the same codes, English name and macrolanguage record |
| IsoData.FillGapsFills | src/zimscraperlib/i18n.py:130-132 | the loop replaces exactly the falsy codes of the visited levels with the macrolanguage's, and keeps every other field |
| IsoData.UpdateWithMacro | src/zimscraperlib/i18n.py:125-134 | with no macrolanguage the record is returned unchanged; otherwise a truthy code is kept, a falsy one is taken from the macrolanguage, and `english` and `iso_types` are untouched |
| IsoData.UpdateWithMacroIdempotent | src/zimscraperlib/i18n.py:125-134 | applying the update twice with the same macrolanguage equals applying it once |
| IsoData.UpdateWithMacroMissingOnlyIfBoth | src/zimscraperlib/i18n.py:130-132 | after the update a code is missing exactly when both records miss it, and no empty code appears |
| Details.MakeDetails | src/zimscraperlib/i18n.py:36-48 | the record copies codes and tags from the `Lang`, and takes the display names, query type and query from the arguments |
| Details.Eq | src/zimscraperlib/i18n.py:50-62 | a record equals a value exactly when the value is a record and all seven compared fields agree |
| Details.EqRejectsOtherTypes | src/zimscraperlib/i18n.py:51-52 | a record never equals a string, `None` or any other non-record value |
| Details.EqIgnoresQueryFields | src/zimscraperlib/i18n.py:54-62 | changing `iso_types`, `query` and `querytype` never breaks equality |
| Details.EqIsEquivalence | src/zimscraperlib/i18n.py:54-62 | equality on records is reflexive, symmetric and transitive |
| Details.PatchBreaksEq | src/zimscraperlib/i18n.py:54-62 | setting any one of the seven compared fields to a different value breaks equality in both directions |
| Details.Patch | tests/i18n/test_i18n.py:256 | a patch sets one compared field and leaves the other six, the tags, the query and the query type as they were |
| Names.NameSearchLevelsReversed | src/zimscraperlib/i18n.py:112-113 | the codes are tried in `ISO_LEVELS` order reversed |
| Names.Candidates | src/zimscraperlib/i18n.py:105-115 | the codes tried are the query, then the 639-5, 639-3, 639-2t, 639-2b and 639-1 codes, in that order |
| Names.FirstRenderable | src/zimscraperlib/i18n.py:112-120 | the search stops at the first candidate with both names non-empty, and no earlier candidate has both |
| Names.FindNamesWith | src/zimscraperlib/i18n.py:104-122 | the result is the native and English names of the first candidate that has both; when no candidate has both, it is `english or query`, twice |
| Names.QueryRendersFirst | src/zimscraperlib/i18n.py:104-108 | a query the renderer can name is named by itself, whatever the record holds |
| Names.CodeRendersInOrder | src/zimscraperlib/i18n.py:112-118 | when the query does not render, the most qualified code that renders supplies both names |
| Names.NamesNonEmpty | src/zimscraperlib/i18n.py:104-122 | for a non-empty query both returned names are non-empty |
| Names.NamesDependOnCodesAndEnglish | src/zimscraperlib/i18n.py:112-122 | only the codes and the English name of the language data affect the names |
| Names.UnrenderableQueryIgnored | src/zimscraperlib/i18n.py:104-122 | two queries that do not render get equal names from records with equal codes and a non-empty English name |
| Resolver.Classify | src/zimscraperlib/i18n.py:146-162 | a pure code or a locale consists of letters and separators only; a locale's looked-up text is the run of letters before its single separator |
| Resolver.ClassifyPurecode | src/zimscraperlib/i18n.py:146-150 | two or three letters, and nothing else, are a pure code looked up and rendered unchanged |
| Resolver.ClassifyLocale | src/zimscraperlib/i18n.py:151-157 | a query is a locale exactly when it is letters, one `-` or `_`, letters; the part before the separator is looked up and the renderer gets the query with `_` as separator |
| Resolver.ClassifyLanguagename | src/zimscraperlib/i18n.py:158-162 | every other query is a language name, rendered as is and looked up as its title-cased form with `Languages` turned back into `languages`, a text of equal length that differs from the query only in letter case |
| Resolver.LanguagenameKeyIgnoresCase | src/zimscraperlib/i18n.py:160 | two language names that differ only in letter case are looked up as the same text |
| Resolver.GetLanguageDetails | src/zimscraperlib/i18n.py:137-173 | a failed lookup raises `NotFoundError`, or returns `None` exactly in failsafe mode; stack exhaustion always propagates; a successful lookup always yields a full record holding the query verbatim, its classification, the codes after the macrolanguage update, and the native and English names found for the native query with the updated record |
| Resolver.FailsafeOnlyAffectsNotFound | src/zimscraperlib/i18n.py:164-169 | the two modes differ only in `NotFoundError` versus `None` |
| Resolver.IsoTypesFollowQuery | src/zimscraperlib/i18n.py:146-173 | the tags of a result are the fields of the table entry that equal the query ignoring case, or the part before the separator for a locale |
| Resolver.SameEntryEqualRecords | src/zimscraperlib/i18n.py:50-62 | two queries reaching the same entry, neither of which renders, yield equal records although their query, type and tags may differ |
| Resolver.FindLanguageNames | src/zimscraperlib/i18n.py:93-122 | without language data, an unknown query names itself twice, a known query is named through the fallback chain with its resolved record, and stack exhaustion in that lookup is raised; with language data the chain is used with that data; only stack exhaustion escapes |
| Resolver.FindLanguageNamesRendersQuery | src/zimscraperlib/i18n.py:99-108 | a known query the renderer can name gets its own native and English names |
| Resolver.FindLanguageNamesOwnRecord | src/zimscraperlib/i18n.py:99-122 | a known query the renderer receives unchanged is named exactly as its own resolved record's native and English names |
| Resolver.IsValidIso6393 | src/zimscraperlib/i18n.py:176-179 | the code is valid exactly when the failsafe lookup succeeds and the updated 639-3 code equals it; the renderer plays no part |
| Resolver.OwnPart3CodeIsValid | src/zimscraperlib/i18n.py:176-179 | a three-letter code listed in the table as its own 639-3 code, with no macrolanguage, is valid |
| Text.TitleKeepsLetters | src/zimscraperlib/i18n.py:160 | title-casing keeps the length and changes letter case only |
| Text.TitleIdempotent | src/zimscraperlib/i18n.py:160 | title-casing a title-cased string changes nothing |
| Text.TitleIgnoresCase | src/zimscraperlib/i18n.py:160 | strings equal up to letter case title-case to the same string |
| Text.ReplaceAllKeepsLetters | src/zimscraperlib/i18n.py:160 | replacing `Languages` by `languages` keeps the string equal up to letter case |
| Text.ReplaceCharPointwise | src/zimscraperlib/i18n.py:156 | replacing `-` by `_` acts character by character |
| Text.FirstSeparator | src/zimscraperlib/i18n.py:155 | the split point is a separator and no separator comes before it |
| Text.OneSeparatorShape | src/zimscraperlib/i18n.py:151-153 | "only letters, `-` and `_`, with one separator in all" holds exactly of letters around one separator, and that separator is the first one |

## Left out

- The ISO 639 dataset and babel's locale data are not modelled. Both are parameters the model does not interpret, so no concrete name such as "Hindi (India)" is derived.
- `str.isalpha`, `str.lower` and `str.title` are modelled on ASCII letters only. Unicode letters and case mapping are not part of this model.
- `LangAndDetails.__repr__` is debug formatting only.
- Every exception the renderer can raise is folded into a `None` answer. The model assumes the renderer raises nothing outside the caught `UnknownLocaleError`, `TypeError`, `ValueError` and `AttributeError`.
- `failsafe` is a `bool`; the source also accepts `None`, which behaves as `False`.
- `update_with_macro` mutates its argument in place and returns it. The model returns a new record, because nothing else holds the old object.
- Python's recursion limit is the `stackDepth` parameter, not a fixed number of frames.
- `src/zimscraperlib/typing.py`, `src/zimscraperlib/image/__init__.py`, `src/zimscraperlib/video/__init__.py` and `tests/filesystem/test_filesystem.py` are not part of this model. They are a callable wrapper, re-export shims, and file-system I/O.

=== FILE: details.dfy ===
/** The resolved record `LangAndDetails` and its equality `__eq__`, which
    compares the five codes and the two display names and nothing else. */
module Details {
  import opened Wrappers
  import opened IsoData

  /** How the query was read: `purecode`, `locale` or `languagename`. */
  datatype QueryType = Purecode | Locale | Languagename

  datatype LangAndDetails = LangAndDetails(
    iso1: Option<string>, iso2b: Option<string>, iso2t: Option<string>,
    iso3: Option<string>, iso5: Option<string>,
    isoTypes: seq<IsoType>,
    english: string, native: string,
    querytype: QueryType, query: string)

  /** `LangAndDetails(lang, english_name, native, querytype, query)`:
      codes and tags are copied from `lang`, its English name is not. */
  function MakeDetails(lang: Lang, english: string, native: string, querytype: QueryType, query: string): (d: LangAndDetails)
    ensures forall level :: DetailsCode(d, level) == Code(lang, level)
    ensures d.isoTypes == lang.isoTypes
    ensures d.english == english && d.native == native
    ensures d.querytype == querytype && d.query == query
  {
    LangAndDetails(lang.iso1, lang.iso2b, lang.iso2t, lang.iso3, lang.iso5,
                   lang.isoTypes, english, native, querytype, query)
  }

  function DetailsCode(d: LangAndDetails, level: IsoLevel): Option<string> {
    match level
    case L1 => d.iso1
    case L2b => d.iso2b
    case L2t => d.iso2t
    case L3 => d.iso3
    case L5 => d.iso5
  }

  /** The right-hand side of `==`: a record, or any other Python value
      (a string, `None`). */
  datatype PyValue = DetailsValue(details: LangAndDetails) | StrValue(s: string) | NoneValue

  /** `LangAndDetails.__eq__`: only another record can be equal, and then
      exactly when all seven compared fields agree. */
  predicate Eq(self: LangAndDetails, value: PyValue)
    ensures Eq(self, value) <==>
      value.DetailsValue? && forall f :: Compared(self, f) == Compared(value.details, f)
  {
    match value
    case DetailsValue(other) =>
      FieldsAgree(self, other);
      && self.iso1 == other.iso1
      && self.iso2b == other.iso2b
      && self.iso2t == other.iso2t
      && self.iso3 == other.iso3
      && self.iso5 == other.iso5
      && self.english == other.english
      && self.native == other.native
    case _ => false
  }

  /** The seven fields a record is compared on. */
  datatype ComparedField = CodeField(level: IsoLevel) | EnglishField | NativeField

  /** A compared field's value; display names are wrapped in `Some`. */
  function Compared(d: LangAndDetails, f: ComparedField): Option<string> {
    match f
    case CodeField(level) => DetailsCode(d, level)
    case EnglishField => Some(d.english)
    case NativeField => Some(d.native)
  }

  /** `setattr(d, f, s)` on one compared field. */
  function Patch(d: LangAndDetails, f: ComparedField, s: string): (r: LangAndDetails)
    ensures Compared(r, f) == Some(s)
    ensures forall g :: g != f ==> Compared(r, g) == Compared(d, g)
    ensures r.isoTypes == d.isoTypes && r.query == d.query && r.querytype == d.querytype
  {
    match f
    case CodeField(L1) => d.(iso1 := Some(s))
    case CodeField(L2b) => d.(iso2b := Some(s))
    case CodeField(L2t) => d.(iso2t := Some(s))
    case CodeField(L3) => d.(iso3 := Some(s))
    case CodeField(L5) => d.(iso5 := Some(s))
    case EnglishField => d.(english := s)
    case NativeField => d.(native := s)
  }

  // ---------------------------------------------------------------------
  // Properties of equality
  // ---------------------------------------------------------------------

  /** Agreement on every compared field is agreement on the five codes and
      the two display names. */
  lemma FieldsAgree(a: LangAndDetails, b: LangAndDetails)
    ensures (forall f :: Compared(a, f) == Compared(b, f)) ==>
      && a.iso1 == b.iso1 && a.iso2b == b.iso2b && a.iso2t == b.iso2t
      && a.iso3 == b.iso3 && a.iso5 == b.iso5
      && a.english == b.english && a.native == b.native
  {
    if forall f :: Compared(a, f) == Compared(b, f) {
      assert Compared(a, CodeField(L1)) == Compared(b, CodeField(L1));
      assert Compared(a, CodeField(L2b)) == Compared(b, CodeField(L2b));
      assert Compared(a, CodeField(L2t)) == Compared(b, CodeField(L2t));
      assert Compared(a, CodeField(L3)) == Compared(b, CodeField(L3));
      assert Compared(a, CodeField(L5)) == Compared(b, CodeField(L5));
      assert Compared(a, EnglishField) == Compared(b, EnglishField);
      assert Compared(a, NativeField) == Compared(b, NativeField);
    }
  }

  /** A record is never equal to a value of another type. */
  lemma EqRejectsOtherTypes(a: LangAndDetails, v: PyValue)
    requires !v.DetailsValue?
    ensures !Eq(a, v)
  {
  }

  /** `iso_types`, `query` and `querytype` take no part in equality. */
  lemma EqIgnoresQueryFields(a: LangAndDetails, types: seq<IsoType>, query: string, querytype: QueryType)
    ensures Eq(a, DetailsValue(a.(isoTypes := types, query := query, querytype := querytype)))
  {
  }

  /** Equality is reflexive, symmetric and transitive. */
  lemma EqIsEquivalence(a: LangAndDetails, b: LangAndDetails, c: LangAndDetails)
    ensures Eq(a, DetailsValue(a))
    ensures Eq(a, DetailsValue(b)) <==> Eq(b, DetailsValue(a))
    ensures Eq(a, DetailsValue(b)) && Eq(b, DetailsValue(c)) ==> Eq(a, DetailsValue(c))
  {
  }

  /** Setting any one compared field to a different value breaks equality
      in both directions, and leaves the other six fields as they were. */
  lemma PatchBreaksEq(d: LangAndDetails, f: ComparedField, s: string)
    requires Compared(d, f) != Some(s)
    ensures !Eq(d, DetailsValue(Patch(d, f, s)))
    ensures !Eq(Patch(d, f, s), DetailsValue(d))
  {
  }
}

=== FILE: isodata.dfy ===
/** ISO 639 identity records: the `Lang` record built from the ISO 639
    table's answer (`Lang.__init__`), the lookup with one macrolanguage
    (`get_iso_lang_data`) and the gap filling from that macrolanguage
    (`update_with_macro`). The table itself (`iso639.Lang(s)`) is an oracle. */
module IsoData {
  import opened Wrappers
  import opened Text

  /** What the ISO 639 table returns for a name or code: the five codes and
      the English name, each `""` when absent, and the name of the
      macrolanguage when there is one (`macro().name`). */
  datatype IsoRec = IsoRec(
    pt1: string, pt2b: string, pt2t: string, pt3: string, pt5: string,
    name: string, macro: Option<string>)

  /** `iso639.Lang(s)`: `None` when it raises `InvalidLanguageValue` or
      `DeprecatedLanguageValue`. */
  type IsoTable = string -> Option<IsoRec>

  /** The two ways a lookup ends without a record: `NotFoundError`, and the
      interpreter running out of stack while following macrolanguages. */
  datatype Error = NotFoundError | RecursionError

  /** The ISO 639 parts, in the order of `ISO_LEVELS`. */
  datatype IsoLevel = L1 | L2b | L2t | L3 | L5

  const IsoLevels: seq<IsoLevel> := [L1, L2b, L2t, L3, L5]

  /** The tags of `iso_types`: `partX` for an ISO 639 part, and `name`. */
  datatype IsoType = Part(level: IsoLevel) | NameType

  /** The order in which `Lang.__init__` tests the tags. */
  const IsoTypeOrder: seq<IsoType> :=
    [Part(L1), Part(L2b), Part(L2t), Part(L3), Part(L5), NameType]

  lemma EveryLevelListed(level: IsoLevel)
    ensures level in IsoLevels
  {
  }

  lemma EveryTypeListed(t: IsoType)
    ensures t in IsoTypeOrder
  {
    match t
    case Part(L1) => assert IsoTypeOrder[0] == t;
    case Part(L2b) => assert IsoTypeOrder[1] == t;
    case Part(L2t) => assert IsoTypeOrder[2] == t;
    case Part(L3) => assert IsoTypeOrder[3] == t;
    case Part(L5) => assert IsoTypeOrder[4] == t;
    case NameType => assert IsoTypeOrder[5] == t;
  }

  /** `IsoTypeOrder` lists every tag once, by increasing rank. */
  lemma TypeOrderComplete()
    ensures forall t :: t in IsoTypeOrder
    ensures Ascending(IsoTypeOrder)
  {
    forall t: IsoType ensures t in IsoTypeOrder {
      EveryTypeListed(t);
    }
  }

  function Rank(t: IsoType): nat {
    match t
    case Part(L1) => 0
    case Part(L2b) => 1
    case Part(L2t) => 2
    case Part(L3) => 3
    case Part(L5) => 4
    case NameType => 5
  }

  /** Ranks strictly increase along `ts`. */
  predicate Ascending(ts: seq<IsoType>)
    decreases |ts|
  {
    |ts| < 2 || (Rank(ts[0]) < Rank(ts[1]) && Ascending(ts[1..]))
  }

  /** In an ascending list every later tag outranks the first. */
  lemma {:induction false} AscendingHeadBelow(ts: seq<IsoType>, t: IsoType)
    requires Ascending(ts) && |ts| > 0 && t in ts[1..]
    ensures Rank(ts[0]) < Rank(t)
    decreases |ts|
  {
    if ts[1] != t {
      assert t in ts[1..][1..];
      AscendingHeadBelow(ts[1..], t);
    }
  }

  function RecCode(rec: IsoRec, level: IsoLevel): string {
    match level
    case L1 => rec.pt1
    case L2b => rec.pt2b
    case L2t => rec.pt2t
    case L3 => rec.pt3
    case L5 => rec.pt5
  }

  /** `getattr(iso639_lang_obj, iso_level)` for the attribute tag `t` names. */
  function RecField(rec: IsoRec, t: IsoType): string {
    match t
    case Part(level) => RecCode(rec, level)
    case NameType => rec.name
  }

  /** The record kept per lookup: codes and English name as `None` when
      empty, and which fields matched the requested text. */
  datatype Lang = Lang(
    iso1: Option<string>, iso2b: Option<string>, iso2t: Option<string>,
    iso3: Option<string>, iso5: Option<string>,
    english: Option<string>, isoTypes: seq<IsoType>)

  function Code(l: Lang, level: IsoLevel): Option<string> {
    match level
    case L1 => l.iso1
    case L2b => l.iso2b
    case L2t => l.iso2t
    case L3 => l.iso3
    case L5 => l.iso5
  }

  /** `setattr(l, "iso_639_" + level, v)` */
  function WithCode(l: Lang, level: IsoLevel, v: Option<string>): (r: Lang)
    ensures Code(r, level) == v
    ensures forall other :: other != level ==> Code(r, other) == Code(l, other)
    ensures r.english == l.english && r.isoTypes == l.isoTypes
  {
    match level
    case L1 => l.(iso1 := v)
    case L2b => l.(iso2b := v)
    case L2t => l.(iso2t := v)
    case L3 => l.(iso3 := v)
    case L5 => l.(iso5 := v)
  }

  /** `s or None` */
  function OrNone(s: string): Option<string> {
    if s == "" then None else Some(s)
  }

  /** Python truthiness of an optional string: `None` and `""` are false. */
  predicate Truthy(v: Option<string>) {
    v.Some? && v.value != ""
  }

  /** The tags among `ts` whose field equals `requested` ignoring case,
      in the order of `ts`. */
  function MatchingTypes(rec: IsoRec, requested: string, ts: seq<IsoType>): seq<IsoType>
    decreases |ts|
  {
    if ts == [] then []
    else if EqualsIgnoreCase(RecField(rec, ts[0]), requested) then
      [ts[0]] + MatchingTypes(rec, requested, ts[1..])
    else MatchingTypes(rec, requested, ts[1..])
  }

  /** The filter keeps exactly the matching tags and keeps them in order. */
  lemma {:induction false} MatchingTypesFilters(rec: IsoRec, requested: string, ts: seq<IsoType>)
    ensures forall t :: t in MatchingTypes(rec, requested, ts)
                        <==> t in ts && EqualsIgnoreCase(RecField(rec, t), requested)
    ensures Ascending(ts) ==> Ascending(MatchingTypes(rec, requested, ts))
    decreases |ts|
  {
    if ts != [] {
      var rest := MatchingTypes(rec, requested, ts[1..]);
      MatchingTypesFilters(rec, requested, ts[1..]);
      assert forall t :: t in ts <==> t == ts[0] || t in ts[1..];
      if EqualsIgnoreCase(RecField(rec, ts[0]), requested) {
        var r := [ts[0]] + rest;
        if Ascending(ts) && |rest| > 0 {
          assert rest[0] in rest;
          AscendingHeadBelow(ts, rest[0]);
        }
        assert r[1..] == rest;
      }
    }
  }

  /** `Lang(requested_lang, iso639_lang_obj)` */
  function MakeLang(requested: string, rec: IsoRec): (l: Lang)
    ensures forall level :: Code(l, level) == OrNone(RecCode(rec, level))
    ensures l.english == OrNone(rec.name)
  {
    Lang(OrNone(rec.pt1), OrNone(rec.pt2b), OrNone(rec.pt2t), OrNone(rec.pt3), OrNone(rec.pt5),
         OrNone(rec.name), MatchingTypes(rec, requested, IsoTypeOrder))
  }

  /** `iso_types` holds exactly the tags whose field equals the requested
      text ignoring case, in part1, part2b, part2t, part3, part5, name order. */
  lemma MakeLangIsoTypes(requested: string, rec: IsoRec)
    ensures forall t :: t in MakeLang(requested, rec).isoTypes <==> EqualsIgnoreCase(RecField(rec, t), requested)
    ensures Ascending(MakeLang(requested, rec).isoTypes)
  {
    TypeOrderComplete();
    MatchingTypesFilters(rec, requested, IsoTypeOrder);
  }

  /** No code field holds `""`: empty codes are stored as `None`. */
  predicate NoEmptyCodes(l: Lang) {
    forall level :: Code(l, level) != Some("")
  }

  /** `get_iso_lang_data(lang)`: the record for `lang` and, when it has a
      macrolanguage, the record for that macrolanguage's name. The lookup of
      the macrolanguage is itself `get_iso_lang_data`, so it follows the
      chain further and fails if any link fails; only its first component is
      kept. `depth` is the number of nested calls the stack still allows. */
  function IsoLangData(table: IsoTable, lang: string, depth: nat): (r: Result<(Lang, Option<Lang>), Error>)
    ensures table(lang).None? ==> r == Failure(NotFoundError)
    ensures r.Success? ==> table(lang).Some? && r.value.0 == MakeLang(lang, table(lang).value)
    ensures r.Success? ==> (r.value.1.Some? <==> table(lang).value.macro.Some?)
    ensures r.Success? && r.value.1.Some? ==>
      var m := table(lang).value.macro.value;
      table(m).Some? && r.value.1.value == MakeLang(m, table(m).value)
    ensures table(lang).Some? && table(lang).value.macro.None? ==>
      r == Success((MakeLang(lang, table(lang).value), None))
    ensures r.Failure? && table(lang).Some? ==> table(lang).value.macro.Some?
    decreases depth
  {
    match table(lang)
    case None => Failure(NotFoundError)
    case Some(rec) =>
      var ours := MakeLang(lang, rec);
      match rec.macro
      case None => Success((ours, None))
      case Some(m) =>
        if depth == 0 then Failure(RecursionError)
        else
          match IsoLangData(table, m, depth - 1)
          case Failure(e) => Failure(e)
          case Success(macroData) => Success((ours, Some(macroData.0)))
  }

  /** The loop of `update_with_macro` over the levels in `levels`. */
  function FillGaps(l: Lang, macro: Lang, levels: seq<IsoLevel>): Lang
    decreases |levels|
  {
    if levels == [] then l
    else
      var level := levels[0];
      var step := if Truthy(Code(l, level)) then l else WithCode(l, level, Code(macro, level));
      FillGaps(step, macro, levels[1..])
  }

  /** The loop replaces exactly the falsy codes of the visited levels by
      the macrolanguage's, and touches nothing else. */
  lemma {:induction false} FillGapsFills(l: Lang, macro: Lang, levels: seq<IsoLevel>)
    ensures forall level :: level !in levels ==> Code(FillGaps(l, macro, levels), level) == Code(l, level)
    ensures forall level :: level in levels && Truthy(Code(l, level)) ==>
      Code(FillGaps(l, macro, levels), level) == Code(l, level)
    ensures forall level :: level in levels && !Truthy(Code(l, level)) ==>
      Code(FillGaps(l, macro, levels), level) == Code(macro, level)
    ensures FillGaps(l, macro, levels).english == l.english
    ensures FillGaps(l, macro, levels).isoTypes == l.isoTypes
    decreases |levels|
  {
    if levels != [] {
      var level := levels[0];
      var step := if Truthy(Code(l, level)) then l else WithCode(l, level, Code(macro, level));
      FillGapsFills(step, macro, levels[1..]);
      assert forall x :: x in levels <==> x == level || x in levels[1..];
    }
  }

  /** `update_with_macro(lang_data, macro_data)` */
  function UpdateWithMacro(l: Lang, macro: Option<Lang>): (r: Lang)
    ensures macro.None? ==> r == l
    ensures forall level :: Truthy(Code(l, level)) ==> Code(r, level) == Code(l, level)
    ensures macro.Some? ==> forall level :: !Truthy(Code(l, level)) ==> Code(r, level) == Code(macro.value, level)
    ensures r.english == l.english && r.isoTypes == l.isoTypes
  {
    match macro
    case None => l
    case Some(m) =>
      assert forall level :: level in IsoLevels by {
        forall level: IsoLevel ensures level in IsoLevels { EveryLevelListed(level); }
      }
      FillGapsFills(l, m, IsoLevels);
      FillGaps(l, m, IsoLevels)
  }

  // ---------------------------------------------------------------------
  // Properties of the lookup and of the gap filling
  // ---------------------------------------------------------------------

  /** A language whose macrolanguage has no macrolanguage of its own
      resolves in one nested call, to both records. */
  lemma IsoLangDataOneMacroLevel(table: IsoTable, lang: string, depth: nat)
    requires table(lang).Some? && table(lang).value.macro.Some?
    requires table(table(lang).value.macro.value).Some?
    requires table(table(lang).value.macro.value).value.macro.None?
    requires depth >= 1
    ensures
      var m := table(lang).value.macro.value;
      IsoLangData(table, lang, depth)
        == Success((MakeLang(lang, table(lang).value), Some(MakeLang(m, table(m).value))))
  {
  }

  /** A macrolanguage name the table does not know makes the whole lookup
      fail with `NotFoundError`, although the language itself was found. */
  lemma IsoLangDataMacroNotFound(table: IsoTable, lang: string, depth: nat)
    requires table(lang).Some? && table(lang).value.macro.Some?
    requires table(table(lang).value.macro.value).None?
    requires depth >= 1
    ensures IsoLangData(table, lang, depth) == Failure(NotFoundError)
  {
  }

  /** With stack left, a known language fails only with the error of its
      macrolanguage's own lookup. */
  lemma IsoLangDataNestedFailure(table: IsoTable, lang: string, depth: nat)
    requires table(lang).Some? && depth > 0
    requires IsoLangData(table, lang, depth).Failure?
    ensures table(lang).value.macro.Some?
    ensures IsoLangData(table, table(lang).value.macro.value, depth - 1)
            == Failure(IsoLangData(table, lang, depth).error)
  {
  }

  /** A known language with a macrolanguage fails when the stack is spent,
      and otherwise whenever its macrolanguage's own lookup fails, with
      that lookup's error. */
  lemma IsoLangDataNestedFailurePropagates(table: IsoTable, lang: string, depth: nat)
    requires table(lang).Some? && table(lang).value.macro.Some?
    ensures depth == 0 ==> IsoLangData(table, lang, depth) == Failure(RecursionError)
    ensures depth > 0 && IsoLangData(table, table(lang).value.macro.value, depth - 1).Failure? ==>
      IsoLangData(table, lang, depth) == Failure(IsoLangData(table, table(lang).value.macro.value, depth - 1).error)
  {
  }

  /** More stack never changes an answer reached without exhausting it. */
  lemma {:induction false} IsoLangDataDepthMonotone(table: IsoTable, lang: string, depth: nat)
    requires IsoLangData(table, lang, depth) != Failure(RecursionError)
    ensures IsoLangData(table, lang, depth + 1) == IsoLangData(table, lang, depth)
    decreases depth
  {
    match table(lang)
    case None =>
    case Some(rec) =>
      match rec.macro
      case None =>
      case Some(m) =>
        IsoLangDataDepthMonotone(table, m, depth - 1);
  }

  /** Records built by `MakeLang` store no empty code. */
  lemma MakeLangNoEmptyCodes(requested: string, rec: IsoRec)
    ensures NoEmptyCodes(MakeLang(requested, rec))
  {
  }

  /** Filling gaps from the same macrolanguage twice changes nothing more. */
  lemma UpdateWithMacroIdempotent(l: Lang, macro: Option<Lang>)
    ensures UpdateWithMacro(UpdateWithMacro(l, macro), macro) == UpdateWithMacro(l, macro)
  {
  }

  /** After the update a code is missing only if both records miss it, and
      no empty code is introduced. */
  lemma UpdateWithMacroMissingOnlyIfBoth(l: Lang, macro: Lang, level: IsoLevel)
    requires NoEmptyCodes(l) && NoEmptyCodes(macro)
    ensures Code(UpdateWithMacro(l, Some(macro)), level).None?
            <==> Code(l, level).None? && Code(macro, level).None?
    ensures NoEmptyCodes(UpdateWithMacro(l, Some(macro)))
  {
  }

  /** Two texts the table maps to the same entry succeed or fail alike,
      and once looked up differ only in their `iso_types`. */
  lemma SameEntrySameLookup(table: IsoTable, k1: string, k2: string, depth: nat)
    requires table(k1) == table(k2)
    ensures IsoLangData(table, k1, depth).Failure? ==> IsoLangData(table, k1, depth) == IsoLangData(table, k2, depth)
    ensures IsoLangData(table, k1, depth).Success? ==>
      && IsoLangData(table, k2, depth).Success?
      && var f1 := IsoLangData(table, k1, depth).value;
         var f2 := IsoLangData(table, k2, depth).value;
         && f1.1 == f2.1
         && f1.0.english == f2.0.english
         && forall level :: Code(f1.0, level) == Code(f2.0, level)
  {
  }
}

=== FILE: names.dfy ===
/** Display names (`find_language_names` once it has language data): the
    first candidate locale for which the locale renderer gives both a native
    and an English name wins; otherwise the English name or the query is
    used for both. The renderer (`babel.Locale.parse(c).get_display_name`)
    is an oracle. */
module Names {
  import opened Wrappers
  import opened IsoData
  import opened Details

  /** `babel.Locale.parse(code).get_display_name(target)`: `target` is `None`
      for the locale's own language. `None` stands for a parse failure or an
      exception while rendering, and for a `None` result. */
  type Renderer = (string, Option<string>) -> Option<string>

  /** The locale English names are rendered in. */
  const EnglishLocale: string := "en"

  /** The `lang_data` argument: a `Lang` or a `LangAndDetails`. */
  datatype LangData = OfLang(lang: Lang) | OfDetails(details: LangAndDetails)

  function DataCode(ld: LangData, level: IsoLevel): Option<string> {
    match ld
    case OfLang(l) => Code(l, level)
    case OfDetails(d) => DetailsCode(d, level)
  }

  function DataEnglish(ld: LangData): Option<string> {
    match ld
    case OfLang(l) => l.english
    case OfDetails(d) => Some(d.english)
  }

  /** `reversed(ISO_LEVELS)`: most qualified part first. */
  const NameSearchLevels: seq<IsoLevel> := [L5, L3, L2t, L2b, L1]

  /** The search order is `ISO_LEVELS` reversed. */
  lemma NameSearchLevelsReversed()
    ensures |NameSearchLevels| == |IsoLevels|
    ensures forall i :: 0 <= i < |IsoLevels| ==> NameSearchLevels[i] == IsoLevels[|IsoLevels| - 1 - i]
  {
  }

  /** The codes tried in turn: the query, then the record's codes from
      most to least qualified (`None` where the record has none). */
  function Candidates(query: string, ld: LangData): (cs: seq<Option<string>>)
    ensures |cs| == 6 && cs[0] == Some(query)
    ensures forall i :: 0 <= i < 5 ==> cs[i + 1] == DataCode(ld, NameSearchLevels[i])
  {
    [Some(query)] + seq(5, i requires 0 <= i < 5 => DataCode(ld, NameSearchLevels[i]))
  }

  /** Both display names of `code` are non-empty strings. A `None` code
      never qualifies: parsing `None` raises and is skipped. */
  predicate Renders(render: Renderer, code: Option<string>) {
    && code.Some?
    && Truthy(render(code.value, None))
    && Truthy(render(code.value, Some(EnglishLocale)))
  }

  /** `(native, english)` as rendered for `code`. */
  function RenderedNames(render: Renderer, code: string): (string, string)
    requires Renders(render, Some(code))
  {
    (render(code, None).value, render(code, Some(EnglishLocale)).value)
  }

  /** `i` is the first index whose candidate renders. */
  predicate FirstRenderableAt(render: Renderer, cs: seq<Option<string>>, i: int) {
    && 0 <= i < |cs|
    && Renders(render, cs[i])
    && forall j :: 0 <= j < i ==> !Renders(render, cs[j])
  }

  /** The first index at or after `from` whose candidate renders, or `|cs|`. */
  function FirstRenderable(render: Renderer, cs: seq<Option<string>>, from: nat): (r: nat)
    requires from <= |cs|
    ensures from <= r <= |cs|
    ensures r < |cs| ==> Renders(render, cs[r])
    ensures forall j :: from <= j < r ==> !Renders(render, cs[j])
    decreases |cs| - from
  {
    if from == |cs| then from
    else if Renders(render, cs[from]) then from
    else FirstRenderable(render, cs, from + 1)
  }

  /** `lang_data.english or query` */
  function Fallback(query: string, ld: LangData): string {
    if Truthy(DataEnglish(ld)) then DataEnglish(ld).value else query
  }

  /** `find_language_names(query, lang_data)` with `lang_data` given. */
  function FindNamesWith(render: Renderer, query: string, ld: LangData): (r: (string, string))
    ensures forall i :: FirstRenderableAt(render, Candidates(query, ld), i) ==>
      r == RenderedNames(render, Candidates(query, ld)[i].value)
    ensures (forall i :: 0 <= i < 6 ==> !Renders(render, Candidates(query, ld)[i])) ==>
      r == (Fallback(query, ld), Fallback(query, ld))
  {
    var cs := Candidates(query, ld);
    var k := FirstRenderable(render, cs, 0);
    if k < |cs| then
      assert FirstRenderableAt(render, cs, k);
      assert forall i :: FirstRenderableAt(render, cs, i) ==> i == k;
      RenderedNames(render, cs[k].value)
    else
      (Fallback(query, ld), Fallback(query, ld))
  }

  // ---------------------------------------------------------------------
  // Properties of the fallback chain
  // ---------------------------------------------------------------------

  /** A query the renderer can name is named by itself, whatever the
      language data says. */
  lemma QueryRendersFirst(render: Renderer, query: string, ld: LangData)
    requires Renders(render, Some(query))
    ensures FindNamesWith(render, query, ld) == RenderedNames(render, query)
  {
  }

  /** When the query does not render but the record's `level` code does,
      and no more qualified code does, that code names the language. */
  lemma CodeRendersInOrder(render: Renderer, query: string, ld: LangData, i: nat)
    requires i < 5
    requires !Renders(render, Some(query))
    requires Renders(render, DataCode(ld, NameSearchLevels[i]))
    requires forall j :: 0 <= j < i ==> !Renders(render, DataCode(ld, NameSearchLevels[j]))
    ensures FindNamesWith(render, query, ld) == RenderedNames(render, DataCode(ld, NameSearchLevels[i]).value)
  {
  }

  /** Both names are non-empty whenever the query is. */
  lemma NamesNonEmpty(render: Renderer, query: string, ld: LangData)
    requires query != ""
    ensures FindNamesWith(render, query, ld).0 != ""
    ensures FindNamesWith(render, query, ld).1 != ""
  {
  }

  /** Only the codes and the English name of the language data matter. */
  lemma NamesDependOnCodesAndEnglish(render: Renderer, query: string, a: LangData, b: LangData)
    requires forall level :: DataCode(a, level) == DataCode(b, level)
    requires DataEnglish(a) == DataEnglish(b)
    ensures FindNamesWith(render, query, a) == FindNamesWith(render, query, b)
  {
  }

  /** Two queries neither of which renders get the same names from language
      data with the same codes and the same non-empty English name. */
  lemma UnrenderableQueryIgnored(render: Renderer, q1: string, q2: string, a: LangData, b: LangData)
    requires !Renders(render, Some(q1)) && !Renders(render, Some(q2))
    requires forall level :: DataCode(a, level) == DataCode(b, level)
    requires DataEnglish(a) == DataEnglish(b) && Truthy(DataEnglish(a))
    ensures FindNamesWith(render, q1, a) == FindNamesWith(render, q2, b)
  {
  }
}

=== FILE: resolver.dfy ===
/** The public entry points: `get_language_details`, `find_language_names`
    and `is_valid_iso_639_3`. The query's shape alone decides how it is
    read (a pure code, a locale, or a language name); one ISO 639 lookup
    follows, and its failure either raises `NotFoundError` or yields `None`. */
module Resolver {
  import opened Wrappers
  import opened Text
  import opened IsoData
  import opened Details
  import opened Names

  /** Everything outside the module: the ISO 639 table, the locale
      renderer, and how many nested macrolanguage lookups the interpreter's
      stack allows. */
  datatype Env = Env(table: IsoTable, render: Renderer, stackDepth: nat)

  /** The reading of a query: its kind, the text looked up in the ISO 639
      table, and the text handed to the locale renderer. */
  datatype Classified = Classified(kind: QueryType, key: string, nativeQuery: string)

  /** The three-way test at the head of `get_language_details`. A code or
      a locale is made of letters and separators only; a locale's key is
      the run of letters before its single separator. */
  function Classify(query: string): (c: Classified)
    ensures c.kind != Languagename ==> LettersOrSeparators(query)
    ensures c.kind == Locale ==> SplitsAt(query, |c.key|) && c.key == query[..|c.key|]
  {
    if IsAlpha(query) && 2 <= |query| <= 3 then
      Classified(Purecode, query, query)
    else if LettersOrSeparators(query) && SeparatorCount(query) == 1 then
      OneSeparatorShape(query);
      Classified(Locale, SplitHead(query), ReplaceAll(query, "-", "_"))
    else
      Classified(Languagename, ReplaceAll(Title(query), "Languages", "languages"), query)
  }

  /** The lookup `get_language_details` performs for `query`. */
  function Lookup(env: Env, query: string): Result<(Lang, Option<Lang>), Error> {
    IsoLangData(env.table, Classify(query).key, env.stackDepth)
  }

  /** `get_language_details(query, failsafe)`. `Success(None)` is the
      `None` return; `Failure` is a raised exception. */
  function GetLanguageDetails(env: Env, query: string, failsafe: bool): (r: Result<Option<LangAndDetails>, Error>)
    ensures r == Failure(NotFoundError) <==> !failsafe && Lookup(env, query) == Failure(NotFoundError)
    ensures r == Success(None) <==> failsafe && Lookup(env, query) == Failure(NotFoundError)
    ensures r == Failure(RecursionError) <==> Lookup(env, query) == Failure(RecursionError)
    ensures r.Success? && r.value.Some? ==>
      var d := r.value.value;
      && Lookup(env, query).Success?
      && d.query == query
      && d.querytype == Classify(query).kind
      && d.isoTypes == Lookup(env, query).value.0.isoTypes
      && var iso := UpdateWithMacro(Lookup(env, query).value.0, Lookup(env, query).value.1);
      && (forall level :: DetailsCode(d, level) == Code(iso, level))
      && d.native == FindNamesWith(env.render, Classify(query).nativeQuery, OfLang(iso)).0
      && d.english == FindNamesWith(env.render, Classify(query).nativeQuery, OfLang(iso)).1
    ensures Lookup(env, query).Success? ==> r.Success? && r.value.Some?
  {
    var c := Classify(query);
    match IsoLangData(env.table, c.key, env.stackDepth)
    case Failure(NotFoundError) =>
      if failsafe then Success(None) else Failure(NotFoundError)
    case Failure(RecursionError) => Failure(RecursionError)
    case Success(found) =>
      var iso := UpdateWithMacro(found.0, found.1);
      var names := FindNamesWith(env.render, c.nativeQuery, OfLang(iso));
      Success(Some(MakeDetails(iso, names.1, names.0, c.kind, query)))
  }

  /** `find_language_names(query, lang_data)`. Without language data it
      resolves the query itself in failsafe mode first. */
  function FindLanguageNames(env: Env, query: string, langData: Option<LangData>): (r: Result<(string, string), Error>)
    ensures langData.Some? ==> r == Success(FindNamesWith(env.render, query, langData.value))
    ensures langData.None? && Lookup(env, query) == Failure(NotFoundError) ==> r == Success((query, query))
    ensures langData.None? && Lookup(env, query).Success? ==>
      r == Success(FindNamesWith(env.render, query, OfDetails(GetLanguageDetails(env, query, true).value.value)))
    ensures r.Failure? ==> langData.None? && r.error == RecursionError
    ensures langData.None? && Lookup(env, query) == Failure(RecursionError) ==> r == Failure(RecursionError)
  {
    match langData
    case Some(ld) => Success(FindNamesWith(env.render, query, ld))
    case None =>
      match GetLanguageDetails(env, query, true)
      case Failure(e) => Failure(e)
      case Success(None) => Success((query, query))
      case Success(Some(d)) => Success(FindNamesWith(env.render, query, OfDetails(d)))
  }

  /** `is_valid_iso_639_3(code)` */
  function IsValidIso6393(env: Env, code: string): (r: Result<bool, Error>)
    ensures r == Success(true) <==>
      && Lookup(env, code).Success?
      && Code(UpdateWithMacro(Lookup(env, code).value.0, Lookup(env, code).value.1), L3) == Some(code)
    ensures r.Failure? <==> Lookup(env, code) == Failure(RecursionError)
    ensures r.Failure? ==> r.error == RecursionError
  {
    match GetLanguageDetails(env, code, true)
    case Failure(e) => Failure(e)
    case Success(None) =>
      assert Lookup(env, code) == Failure(NotFoundError);
      Success(false)
    case Success(Some(d)) =>
      assert Lookup(env, code).Success?;
      assert d.iso3 == DetailsCode(d, L3);
      Success(d.iso3 == Some(code))
  }

  // ---------------------------------------------------------------------
  // Classification
  // ---------------------------------------------------------------------

  /** Two or three letters are a pure code, looked up and rendered as is. */
  lemma ClassifyPurecode(q: string)
    ensures Classify(q).kind == Purecode <==> IsAlpha(q) && 2 <= |q| <= 3
    ensures Classify(q).kind == Purecode ==> Classify(q).key == q && Classify(q).nativeQuery == q
  {
  }

  /** Letters, one `-` or `_`, letters: a locale. The part before the
      separator is looked up; the renderer gets the query with `_` as its
      separator. */
  lemma ClassifyLocale(q: string)
    ensures Classify(q).kind == Locale <==> exists k :: SplitsAt(q, k)
    ensures forall k :: SplitsAt(q, k) ==>
      && Classify(q).key == q[..k]
      && Classify(q).nativeQuery == q[..k] + "_" + q[k + 1..]
  {
    OneSeparatorShape(q);
    var first := FirstSeparator(q);
    if SplitsAt(q, first) {
      assert !IsLetter(q[first]);
      assert Classify(q).key == q[..first];
      var native := ReplaceAll(q, "-", "_");
      var expected := q[..first] + "_" + q[first + 1..];
      ReplaceCharPointwise(q, '-', '_');
      assert |native| == |expected|;
      forall i | 0 <= i < |q|
        ensures native[i] == expected[i]
      {
        if i < first {
          assert q[i] == q[..first][i];
        } else if i > first {
          assert q[i] == q[first + 1..][i - first - 1];
        }
      }
      assert native == expected;
    }
  }

  /** Everything else is a language name: the renderer gets the query as
      is, and the looked-up text differs from it in letter case only. */
  lemma ClassifyLanguagename(q: string)
    ensures Classify(q).kind == Languagename <==>
      !(IsAlpha(q) && 2 <= |q| <= 3) && !(exists k :: SplitsAt(q, k))
    ensures Classify(q).kind == Languagename ==>
      && Classify(q).key == ReplaceAll(Title(q), "Languages", "languages")
      && Classify(q).nativeQuery == q
      && |Classify(q).key| == |q|
      && EqualsIgnoreCase(Classify(q).key, q)
  {
    ClassifyLocale(q);
    TitleKeepsLetters(q);
    assert Lower("Languages") == Lower("languages");
    ReplaceAllKeepsLetters(Title(q), "Languages", "languages");
  }

  /** A language name is looked up the same way whatever its letter case. */
  lemma LanguagenameKeyIgnoresCase(q1: string, q2: string)
    requires EqualsIgnoreCase(q1, q2)
    requires Classify(q1).kind == Languagename && Classify(q2).kind == Languagename
    ensures Classify(q1).key == Classify(q2).key
  {
    TitleIgnoresCase(q1, q2);
  }

  // ---------------------------------------------------------------------
  // Resolution
  // ---------------------------------------------------------------------

  /** `failsafe` only turns `NotFoundError` into `None`; every other
      outcome is the same in both modes. */
  lemma FailsafeOnlyAffectsNotFound(env: Env, q: string)
    ensures GetLanguageDetails(env, q, false) == Failure(NotFoundError)
            <==> GetLanguageDetails(env, q, true) == Success(None)
    ensures GetLanguageDetails(env, q, false) != Failure(NotFoundError) ==>
            GetLanguageDetails(env, q, true) == GetLanguageDetails(env, q, false)
  {
  }

  /** The tags of a resolved record are the table fields that equal the
      query ignoring case; for a locale, the part before the separator. */
  lemma IsoTypesFollowQuery(env: Env, q: string, failsafe: bool)
    requires Lookup(env, q).Success?
    ensures env.table(Classify(q).key).Some?
    ensures GetLanguageDetails(env, q, failsafe).Success? && GetLanguageDetails(env, q, failsafe).value.Some?
    ensures
      var d := GetLanguageDetails(env, q, failsafe).value.value;
      var rec := env.table(Classify(q).key).value;
      var matched := if Classify(q).kind == Locale then SplitHead(q) else q;
      forall t :: t in d.isoTypes <==> EqualsIgnoreCase(RecField(rec, t), matched)
  {
    ClassifyPurecode(q);
    ClassifyLanguagename(q);
    MakeLangIsoTypes(Classify(q).key, env.table(Classify(q).key).value);
  }

  /** Two queries that reach the same table entry, neither of which the
      renderer can name, resolve to equal records (as `"ara"` and
      `"Arabic"` do) although their `query`, `querytype` and `iso_types`
      may differ. */
  lemma SameEntryEqualRecords(env: Env, q1: string, q2: string)
    requires Lookup(env, q1).Success?
    requires env.table(Classify(q1).key) == env.table(Classify(q2).key)
    requires env.table(Classify(q1).key).value.name != ""
    requires !Renders(env.render, Some(Classify(q1).nativeQuery))
    requires !Renders(env.render, Some(Classify(q2).nativeQuery))
    ensures GetLanguageDetails(env, q1, false).Success? && GetLanguageDetails(env, q1, false).value.Some?
    ensures GetLanguageDetails(env, q2, false).Success? && GetLanguageDetails(env, q2, false).value.Some?
    ensures Eq(GetLanguageDetails(env, q1, false).value.value,
               DetailsValue(GetLanguageDetails(env, q2, false).value.value))
  {
    var c1, c2 := Classify(q1), Classify(q2);
    SameEntrySameLookup(env.table, c1.key, c2.key, env.stackDepth);
    var f1 := Lookup(env, q1).value;
    var f2 := Lookup(env, q2).value;
    var iso1 := UpdateWithMacro(f1.0, f1.1);
    var iso2 := UpdateWithMacro(f2.0, f2.1);
    assert forall level :: Code(iso1, level) == Code(iso2, level);
    assert iso1.english == Some(env.table(c1.key).value.name);
    UnrenderableQueryIgnored(env.render, c1.nativeQuery, c2.nativeQuery, OfLang(iso1), OfLang(iso2));
    EqualCodesEqualRecords(iso1, iso2,
      FindNamesWith(env.render, c1.nativeQuery, OfLang(iso1)), c1.kind, q1,
      c2.kind, q2);
  }

  lemma EqualCodesEqualRecords(a: Lang, b: Lang, names: (string, string),
                               k1: QueryType, q1: string, k2: QueryType, q2: string)
    requires forall level :: Code(a, level) == Code(b, level)
    ensures Eq(MakeDetails(a, names.1, names.0, k1, q1), DetailsValue(MakeDetails(b, names.1, names.0, k2, q2)))
  {
    assert a.iso1 == Code(a, L1) && b.iso1 == Code(b, L1);
    assert a.iso2b == Code(a, L2b) && b.iso2b == Code(b, L2b);
    assert a.iso2t == Code(a, L2t) && b.iso2t == Code(b, L2t);
    assert a.iso3 == Code(a, L3) && b.iso3 == Code(b, L3);
    assert a.iso5 == Code(a, L5) && b.iso5 == Code(b, L5);
  }

  /** A known query the renderer can name gets its own rendering from
      `find_language_names(query)`. */
  lemma FindLanguageNamesRendersQuery(env: Env, q: string)
    requires Lookup(env, q).Success?
    requires Renders(env.render, Some(q))
    ensures FindLanguageNames(env, q, None) == Success(RenderedNames(env.render, q))
  {
  }

  /** `find_language_names(query)` on a query the renderer receives
      unchanged gives the display names its own resolved record holds. */
  lemma FindLanguageNamesOwnRecord(env: Env, q: string)
    requires Lookup(env, q).Success?
    requires Classify(q).nativeQuery == q
    ensures GetLanguageDetails(env, q, true).Success? && GetLanguageDetails(env, q, true).value.Some?
    ensures
      var d := GetLanguageDetails(env, q, true).value.value;
      FindLanguageNames(env, q, None) == Success((d.native, d.english))
  {
    var d := GetLanguageDetails(env, q, true).value.value;
    var iso := UpdateWithMacro(Lookup(env, q).value.0, Lookup(env, q).value.1);
    assert forall level :: DataCode(OfDetails(d), level) == DataCode(OfLang(iso), level);
    assert Candidates(q, OfDetails(d)) == Candidates(q, OfLang(iso));
  }

  /** A three-letter code the table lists as its own ISO 639-3 code, with
      no macrolanguage, is a valid ISO 639-3 code. */
  lemma OwnPart3CodeIsValid(env: Env, code: string)
    requires IsAlpha(code) && |code| == 3
    requires env.table(code).Some? && env.table(code).value.pt3 == code
    requires env.table(code).value.macro.None?
    ensures IsValidIso6393(env, code) == Success(true)
  {
  }
}

=== FILE: text.dfy ===
/** The string primitives the resolver relies on: `str.isalpha`, `str.lower`,
    `str.title`, `str.count`, `str.replace` and the first piece of
    `re.split("-|_", s)`. Letters are the ASCII letters; Unicode case
    mapping is outside this model. */
module Text {

  /** `c.isalpha()` for ASCII: a cased letter. */
  predicate IsLetter(c: char) {
    'a' <= c <= 'z' || 'A' <= c <= 'Z'
  }

  /** Every character is a letter; the empty string qualifies. */
  predicate Letters(s: string) {
    forall i :: 0 <= i < |s| ==> IsLetter(s[i])
  }

  /** `s.isalpha()`: non-empty and made of letters only. */
  predicate IsAlpha(s: string) {
    |s| > 0 && Letters(s)
  }

  predicate IsSeparator(c: char) {
    c == '-' || c == '_'
  }

  function LowerChar(c: char): char {
    if 'A' <= c <= 'Z' then (c as int + 32) as char else c
  }

  function UpperChar(c: char): char {
    if 'a' <= c <= 'z' then (c as int - 32) as char else c
  }

  /** `s.lower()` */
  function Lower(s: string): string {
    seq(|s|, i requires 0 <= i < |s| => LowerChar(s[i]))
  }

  /** `a.lower() == b.lower()` */
  predicate EqualsIgnoreCase(a: string, b: string) {
    Lower(a) == Lower(b)
  }

  /** `s.title()`: a letter that follows a non-letter (or starts the string)
      is upper-cased, every other letter lower-cased, the rest kept. */
  function Title(s: string): string {
    seq(|s|, i requires 0 <= i < |s| =>
      if !IsLetter(s[i]) then s[i]
      else if i == 0 || !IsLetter(s[i - 1]) then UpperChar(s[i])
      else LowerChar(s[i]))
  }

  /** `s.count(c)` for a one-character needle. */
  function Count(s: string, c: char): nat {
    if s == [] then 0 else (if s[0] == c then 1 else 0) + Count(s[1..], c)
  }

  /** Number of `-` and `_` in `s`. */
  function SeparatorCount(s: string): nat {
    Count(s, '_') + Count(s, '-')
  }

  /** Index of the first `-` or `_`, or `|s|` when there is none. */
  function FirstSeparator(s: string): (k: nat)
    ensures k <= |s|
    ensures k < |s| ==> IsSeparator(s[k])
    ensures forall i :: 0 <= i < k ==> !IsSeparator(s[i])
  {
    if s == [] then 0
    else if IsSeparator(s[0]) then 0
    else 1 + FirstSeparator(s[1..])
  }

  /** `re.split("-|_", s)[0]`: the text before the first separator. */
  function SplitHead(s: string): string {
    s[..FirstSeparator(s)]
  }

  /** `s.replace(target, replacement)`: every non-overlapping occurrence of
      `target`, scanning left to right, is replaced. */
  function ReplaceAll(s: string, target: string, replacement: string): string
    requires |target| > 0
    decreases |s|
  {
    if |s| < |target| then s
    else if s[..|target|] == target then replacement + ReplaceAll(s[|target|..], target, replacement)
    else [s[0]] + ReplaceAll(s[1..], target, replacement)
  }

  // ---------------------------------------------------------------------
  // Facts about the primitives
  // ---------------------------------------------------------------------

  lemma LowerAppend(a: string, b: string)
    ensures Lower(a + b) == Lower(a) + Lower(b)
  {
  }

  /** Title-casing changes letter case only. */
  lemma TitleKeepsLetters(s: string)
    ensures |Title(s)| == |s|
    ensures EqualsIgnoreCase(Title(s), s)
  {
  }

  /** `s.title().title() == s.title()`. */
  lemma TitleIdempotent(s: string)
    ensures Title(Title(s)) == Title(s)
  {
  }

  /** Title-casing forgets the letter case of its input. */
  lemma TitleIgnoresCase(a: string, b: string)
    requires EqualsIgnoreCase(a, b)
    ensures Title(a) == Title(b)
  {
    assert |a| == |Lower(a)| == |Lower(b)| == |b|;
    forall i | 0 <= i < |a|
      ensures Title(a)[i] == Title(b)[i]
    {
      assert Lower(a)[i] == Lower(b)[i];
      if i > 0 {
        assert Lower(a)[i - 1] == Lower(b)[i - 1];
      }
    }
  }

  /** Replacing a pattern by one that differs only in letter case leaves
      the string unchanged up to letter case. */
  lemma {:induction false} ReplaceAllKeepsLetters(s: string, target: string, replacement: string)
    requires |target| > 0 && |replacement| == |target|
    requires EqualsIgnoreCase(target, replacement)
    ensures |ReplaceAll(s, target, replacement)| == |s|
    ensures EqualsIgnoreCase(ReplaceAll(s, target, replacement), s)
    decreases |s|
  {
    if |s| < |target| {
    } else if s[..|target|] == target {
      var rest := s[|target|..];
      ReplaceAllKeepsLetters(rest, target, replacement);
      LowerAppend(replacement, ReplaceAll(rest, target, replacement));
      LowerAppend(target, rest);
      assert s == target + rest;
    } else {
      var rest := s[1..];
      ReplaceAllKeepsLetters(rest, target, replacement);
      LowerAppend([s[0]], ReplaceAll(rest, target, replacement));
      LowerAppend([s[0]], rest);
      assert s == [s[0]] + rest;
    }
  }

  /** Replacing one character by another acts position by position. */
  lemma {:induction false} ReplaceCharPointwise(s: string, a: char, b: char)
    ensures |ReplaceAll(s, [a], [b])| == |s|
    ensures forall i :: 0 <= i < |s| ==>
      ReplaceAll(s, [a], [b])[i] == (if s[i] == a then b else s[i])
    decreases |s|
  {
    if |s| >= 1 {
      ReplaceCharPointwise(s[1..], a, b);
    }
  }

  lemma {:induction false} CountAppend(a: string, b: string, c: char)
    ensures Count(a + b, c) == Count(a, c) + Count(b, c)
    decreases |a|
  {
    if a == [] {
      assert a + b == b;
    } else {
      assert (a + b)[1..] == a[1..] + b;
      CountAppend(a[1..], b, c);
    }
  }

  lemma {:induction false} CountOfLetters(s: string, c: char)
    requires Letters(s) && !IsLetter(c)
    ensures Count(s, c) == 0
    decreases |s|
  {
    if s != [] {
      CountOfLetters(s[1..], c);
    }
  }

  /** A string with no separator before index `k` counts them from `k` on. */
  lemma {:induction false} SeparatorCountFrom(s: string, k: nat)
    requires k <= |s|
    requires forall i :: 0 <= i < k ==> !IsSeparator(s[i])
    ensures SeparatorCount(s) == SeparatorCount(s[k..])
    decreases k
  {
    if k > 0 {
      assert s == [s[0]] + s[1..];
      CountAppend([s[0]], s[1..], '_');
      CountAppend([s[0]], s[1..], '-');
      SeparatorCountFrom(s[1..], k - 1);
      assert s[1..][k - 1..] == s[k..];
    }
  }

  /** A separator-free string has no separators to count. */
  lemma {:induction false} NoSeparatorNoCount(s: string)
    requires forall i :: 0 <= i < |s| ==> !IsSeparator(s[i])
    ensures SeparatorCount(s) == 0
    decreases |s|
  {
    if s != [] {
      NoSeparatorNoCount(s[1..]);
    }
  }

  /** A string counted as having no separator contains none. */
  lemma {:induction false} ZeroCountNoSeparator(s: string)
    requires SeparatorCount(s) == 0
    ensures forall i :: 0 <= i < |s| ==> !IsSeparator(s[i])
    decreases |s|
  {
    if s != [] {
      ZeroCountNoSeparator(s[1..]);
      forall i | 0 <= i < |s|
        ensures !IsSeparator(s[i])
      {
        if i > 0 {
          assert s[i] == s[1..][i - 1];
        }
      }
    }
  }

  /** Every character is a letter, `-` or `_`. */
  predicate LettersOrSeparators(s: string) {
    forall i :: 0 <= i < |s| ==> IsLetter(s[i]) || IsSeparator(s[i])
  }

  /** `s` is letters, one `-` or `_` at index `k`, letters. */
  predicate SplitsAt(s: string, k: int) {
    0 <= k < |s| && IsSeparator(s[k]) && Letters(s[..k]) && Letters(s[k + 1..])
  }

  /** The test `all(x.isalpha() or x in ("-", "_") ...) and count == 1`
      holds exactly of letters around a single separator, and then the
      separator is the first one. */
  lemma OneSeparatorShape(s: string)
    ensures LettersOrSeparators(s) && SeparatorCount(s) == 1
            <==> SplitsAt(s, FirstSeparator(s))
    ensures forall k :: SplitsAt(s, k) ==> k == FirstSeparator(s)
  {
    var k := FirstSeparator(s);
    if LettersOrSeparators(s) && SeparatorCount(s) == 1 {
      if k == |s| {
        NoSeparatorNoCount(s);
        assert false;
      }
      SeparatorCountFrom(s, k);
      assert s[k..] == [s[k]] + s[k + 1..];
      CountAppend([s[k]], s[k + 1..], '_');
      CountAppend([s[k]], s[k + 1..], '-');
      ZeroCountNoSeparator(s[k + 1..]);
    }
    forall j | SplitsAt(s, j)
      ensures j == k
    {
      assert forall i :: 0 <= i < j ==> s[..j][i] == s[i];
    }
    if SplitsAt(s, k) {
      forall i | 0 <= i < |s|
        ensures IsLetter(s[i]) || IsSeparator(s[i])
      {
        if i < k {
          assert s[i] == s[..k][i];
        } else if i > k {
          assert s[i] == s[k + 1..][i - k - 1];
        }
      }
      assert s == s[..k] + ([s[k]] + s[k + 1..]);
      CountOfLetters(s[..k], '_');
      CountOfLetters(s[..k], '-');
      CountOfLetters(s[k + 1..], '_');
      CountOfLetters(s[k + 1..], '-');
      CountAppend(s[..k], [s[k]] + s[k + 1..], '_');
      CountAppend(s[..k], [s[k]] + s[k + 1..], '-');
      CountAppend([s[k]], s[k + 1..], '_');
      CountAppend([s[k]], s[k + 1..], '-');
    }
  }
}

=== FILE: wrappers.dfy ===
/** Option and Result, the two wrappers the model needs. `Option` stands
    for Python's `X | None`; `Result` stands for a call that either returns
    a value or raises one of a fixed set of exceptions. */
module Wrappers {

  datatype Option<+T> = None | Some(value: T)

  datatype Result<+R, +E> = Success(value: R) | Failure(error: E)
}
